=== FILE: README.md ===
# WagerGenie decision rules in Dafny

WagerGenie is a sports-betting "picks" web app: a Next.js front end bound to a
hosted auth/database provider, plus an older Flask back end. Most of its code
is presentation and provider plumbing. This project models the small pure
decision rules inside that plumbing, with the provider abstracted to the
answers it returns:

- **Route guard** (`middleware.ts`), module `Guard`: a function from (path,
  inbound `error` parameter, session lookup outcome) to pass-through or
  redirect. The lookup has three outcomes: no session, a session, or an
  exception. The config matcher is modelled by `Guard.Route`.
- **Accounts** (`app.py`, `signup` / `login`), module `Accounts`: the user
  table is a map keyed by e-mail. The password hash of a new account is an
  input, and the password check is a predicate parameter.
- **Pick endpoint** (`app.py`, `chat_api`), module `Oracle`: the free-quota
  gate and the favourite choice (the first outcome with the largest price,
  as Python's `max` picks it). Also the confidence clamp to [65, 85], the
  American odds text, the quota decrement and the stored `Pending` pick. The
  odds feed is an input. JSON keys that may be absent are `Option`s. An
  empty `bookmakers` list makes `[0]` raise, which is modelled as a
  `ServerError` reply with no side effects.
- **Sign-up / sign-in form** (`app/page.tsx`, `handleAuth`), module
  `AuthFlow`: a decision tree over the provider's sign-up and sign-in
  answers, where either answer may also be a rejected promise. It records
  the provider calls made, where the router is pushed,
  and the form's `loading` and `message`.
- **Genie page** (`app/genie/page.tsx`), module `Genie`: the sample picks and
  messages, the fetch that replaces them only with non-empty rows, the pick
  badge, and the chat stub. The stub's timer is an explicit `DeliverReply`
  step.
- **Chat page** (`app/app/chat/page.tsx`), module `ChatPage`: messages, input
  and `isLoading` as a small state machine. Typing and submitting are
  disabled while loading. The awaited reply is a `Resolve(ok)` event. As
  written, the awaited promise always resolves, so the apology branch is
  unreachable. `Resolve(false)` stands for a reply call that fails, once a
  real back end replaces the placeholder.
- **Settings page** (`app/app/settings/page.tsx`), module `Settings`:
  `handlePreferenceChange` as a one-field record update, and the
  favourite-sport checkboxes over the six listed sports.

Shared helpers live in `Text`: JavaScript's `startsWith`, `includes`, `trim`
and `split('@')[0]`, and Python's `str(int)` with its inverse. `Options`
holds the option type and `Roles` the message roles.

When the session lookup keeps throwing, the guard redirects `/` to `/` again.
`Guard.FailingLookupRedirectsToItself` states this as-written behaviour. With
a working lookup there is no loop (`Guard.NoRedirectLoop`).

## Model

| member | source | states |
|---|---|---|
| `Guard.Middleware` | middleware.ts:37-63 | A redirect goes only to `/` or `/app/dashboard`. The dashboard redirect happens only with a session, only from `/` or `/auth/callback`, and carries no error. Any error carried is either the inbound one or the fixed lookup-failure text. |
| `Guard.SignedOutProtectedRedirects` | middleware.ts:41-47 | Signed out, a path starting with `/app` redirects to `/`. The inbound `error` is copied unchanged, and none is added when there is none. |
| `Guard.SignedInEntryRedirects` | middleware.ts:51-54 | Signed in, `/` and `/auth/callback` redirect to `/app/dashboard` with no error. |
| `Guard.LookupFailureRedirects` | middleware.ts:57-63 | A throwing lookup redirects to `/` with "An error occurred during authentication", whatever the path or inbound error. |
| `Guard.MatchedPassIff` | middleware.ts:41-56 | On a matched path the request passes exactly when signed in under `/app`, or signed out on `/` or `/auth/callback`. |
| `Guard.PrefixTestNotSegmentTest` | middleware.ts:41-67 | The protected test is a prefix test: the guard would redirect `/application`, but the matcher keeps that path away, so it passes. |
| `Guard.MatchedPrefixIsSegment` | middleware.ts:66-68 | On paths the matcher admits, the `/app` prefix test coincides with segment matching (`/app` or `/app/…`). |
| `Guard.NoRedirectLoop` | middleware.ts:41-54 | With a working lookup, following the guard's redirect under the same session state reaches a page the guard passes. |
| `Guard.FailingLookupRedirectsToItself` | middleware.ts:57-63 | While the lookup keeps throwing, the redirect target `/` is redirected to itself again. |
| `Guard.Route` | middleware.ts:66-68 | Requests outside the matcher (`/`, `/app` and paths below it, `/auth/callback`) always pass. Matched requests get the guard's decision, so only matched paths are ever redirected. |
| `Text.Includes` | app/page.tsx:40 | The scan answers true exactly when the text occurs at some position. |
| `Text.StartsWith` | middleware.ts:41 | `startsWith` holds exactly when the prefix is no longer than the text and agrees with it character by character. |
| `Text.TrimStart` | app/app/chat/page.tsx:31 | Drops a leading run of white space and keeps the rest as a suffix. The kept part does not start with white space. |
| `Text.TrimEnd` | app/app/chat/page.tsx:31 | Drops a trailing run of white space and keeps the rest as a prefix. The kept part does not end with white space. |
| `Text.Trim` | app/genie/page.tsx:178 | `trim()` gives a piece of the text with only white space cut off on either side. The piece neither starts nor ends with white space. |
| `Text.TrimEmptyIffBlank` | app/app/chat/page.tsx:31 | `trim()` yields the empty string exactly for strings made only of white space. |
| `Text.BeforeFirstIsFirstSplit` | app/page.tsx:33 | `split('@')[0]` is the whole string when there is no `@`. Otherwise it stops right before the first `@`. |
| `Text.IntToString` | app.py:176 | Python's `str` on an integer starts with `-` exactly for negatives, followed by digits only. 0 prints as `0`, and no other number has a leading zero. |
| `Text.IntToStringRoundTrip` | app.py:176 | Python's `str` on an integer can be read back to the same integer. |
| `Accounts.Signup` | app.py:81-105 | A duplicate e-mail changes nothing and returns to sign-up with "Email already registered". Otherwise exactly one row is added under that e-mail, with plan `free`, 3 picks and the new hash. Other rows are unchanged and the new user is logged in. |
| `Accounts.Login` | app.py:110-122 | Login succeeds exactly when the e-mail exists and the password check holds. Success logs in that row; failure keeps the session and flashes "Invalid email or password". The table is unchanged. |
| `Accounts.SignupKeepsKeyed` | app.py:88-102 | Sign-up keeps every row filed under its own e-mail. |
| `Accounts.SignupTwiceRejected` | app.py:88-90 | A second sign-up with the same e-mail is rejected and leaves the table unchanged. |
| `Accounts.SignupThenLogin` | app.py:92-119 | After sign-up, login with the same password succeeds and logs in the created row. This assumes the check accepts the hash made from that password. |
| `Oracle.FirstBookmakerMarkets` | app.py:166 | The markets lookup raises exactly when `bookmakers` is present but empty. A missing `bookmakers` gives no markets. Otherwise it gives the first bookmaker's markets, or none when that bookmaker has no `markets` key. |
| `Oracle.FirstWithKey` | app.py:167 | Finds the first market whose key matches: no earlier market matches. |
| `Oracle.HeadToHead` | app.py:167 | The outcomes of the first market keyed `h2h`, or none when that market has no `outcomes`. With no `h2h` market the list is empty. |
| `Oracle.MaxFrom` | app.py:170 | The left-to-right scan ends on an outcome priced at least as high as every other, and strictly higher than every earlier one. |
| `Oracle.Favourite` | app.py:170 | The favourite is the first outcome with the largest price. |
| `Oracle.Clamp` | app.py:171 | Confidence lies in [65, 85]. It equals the price inside that range and the nearest bound outside it. |
| `Oracle.FormatOdds` | app.py:176 | The odds text starts with `+` exactly for positive prices and with `-` exactly for negative ones. A zero price prints as `0`. Otherwise the sign is followed by the digits of the price, with no leading zero. It is never "N/A". |
| `Oracle.FormatOddsRoundTrip` | app.py:176 | The odds text reads back to the price. |
| `Oracle.Forecast` | app.py:161-189 | Building the response raises exactly when `bookmakers` is an empty list, and otherwise yields a pick. An empty event `{}` yields the "gathering strength" text with confidence 0 and odds "N/A". A real event's confidence is 70 or lies in [65, 85]. |
| `Oracle.ChatApi` | app.py:147-207 | An exhausted free quota gets the quota message, and a missing or empty feed gets the "cloudy" message; both leave the state unchanged. A first event that cannot be read gives a server error, again with the state unchanged. Otherwise the pick built from the first event is served. A served pick appends one `Pending` record with the reply's text, confidence and odds, and decrements only a free user's quota, by 1. |
| `Oracle.QuotaExhausted` | app.py:149 | Only the free plan is ever gated, and it is gated exactly when fewer than one pick remains. |
| `Oracle.PricedPick` | app.py:169-177 | With head-to-head prices, the pick text names the first outcome with the largest price, together with the event's home and away teams. Its confidence is that price clamped to [65, 85], and its odds are that price's American text, which reads back to the price. |
| `Oracle.UnpricedPick` | app.py:178-183 | Without head-to-head prices, the pick has confidence 70 and odds "N/A". |
| `Oracle.PaidPlansNeverGated` | app.py:149-152 | A non-free plan never gets the quota message and its quota is never changed. |
| `Oracle.FreeQuotaConserved` | app.py:191-205 | On the free plan each call keeps the remaining picks plus the stored picks constant, and never takes a non-negative quota below zero. |
| `Oracle.FreeQuotaBound` | app.py:149-205 | Over any sequence of calls, a free user stores at most their starting quota of picks. History only grows at the end, and the quota stays non-negative. |
| `AuthFlow.ErrorText` | app/page.tsx:83 | The shown error is never empty. It is the error's message, or the fallback "Authentication failed…" text when the message is empty. |
| `AuthFlow.Username` | app/page.tsx:33 | The user name is the prefix of the e-mail before the first `@`, or the whole e-mail if there is none. |
| `AuthFlow.Begin` | app/page.tsx:22-23 | An attempt starts with `loading` on and the message cleared. |
| `AuthFlow.Try` | app/page.tsx:25-84 | One or two provider calls: the sign-up call first in sign-up mode, and a single sign-in call in sign-in mode. A sign-up that returns a user is always followed by a password sign-in; one without a user is not. A second call is always a password sign-in. Navigation to `/genie` happens only after an accepted sign-in and with nothing caught. A rejected sign-in that was made is caught with its message. A rejected sign-up is caught with its message, with no further call. |
| `AuthFlow.HandleAuth` | app/page.tsx:20-87 | After every outcome `loading` is off and the form fields are kept. Navigation only ever goes to `/genie` and leaves the message empty. A shown message means no navigation. |
| `AuthFlow.NavigateIffSignInAccepted` | app/page.tsx:39-80 | The browser goes to `/genie` exactly when a password sign-in was made and the provider accepted it. |
| `AuthFlow.SignInMode` | app/page.tsx:70-83 | In sign-in mode, exactly one sign-in call is made. Navigation happens exactly when it is accepted; otherwise the text of the returned or thrown error is shown. |
| `AuthFlow.AlreadyRegisteredFallsBack` | app/page.tsx:39-53 | In sign-up mode, a returned "already registered" error triggers a password sign-in. Success navigates; a returned or thrown sign-in error is shown. |
| `AuthFlow.OtherSignUpErrorShown` | app/page.tsx:39-55 | In sign-up mode, any other sign-up error is shown. There is no sign-in and no navigation. |
| `AuthFlow.RejectedSignUpSkipsFallback` | app/page.tsx:28-38 | A sign-up whose promise rejects is caught and shown at once. Even an "already registered" text triggers no fallback sign-in. |
| `AuthFlow.SignUpThenAutoSignIn` | app/page.tsx:57-67 | A sign-up that returns a user is followed by a password sign-in. When that sign-in is accepted, the browser goes to `/genie` with no message shown. |
| `AuthFlow.SilentOutcomes` | app/page.tsx:57-69 | If sign-up returns no user, or the automatic sign-in returns an error, nothing happens. The message stays empty even if one was shown before. |
| `AuthFlow.RejectedAutoSignInShown` | app/page.tsx:60-83 | An automatic sign-in whose promise rejects is not silent: its error is shown and there is no navigation. |
| `AuthFlow.SignUpMetadata` | app/page.tsx:28-37 | The sign-up call carries the e-mail prefix before `@` as user name and the `free` plan. |
| `Genie.SamplePicks` | app/genie/page.tsx:26-87 | Six sample picks with distinct ids, each with a result and a confidence within 0–100. |
| `Genie.SampleMessages` | app/genie/page.tsx:89-114 | Four sample messages alternating user and assistant, in increasing time order. |
| `Genie.Initial` | app/genie/page.tsx:119-121 | The page starts with the sample picks and messages, an empty box and nothing scheduled. |
| `Genie.Badge` | app/genie/page.tsx:276 | The badge shows "Pending" exactly when the pick has no result. Otherwise it shows the result. |
| `Genie.FetchData` | app/genie/page.tsx:145-169 | Each list is replaced only by non-empty rows of its own query, independently of the other query. A throwing picks query changes nothing, not even the messages. Fetching never touches the text box or scheduled replies. |
| `Genie.Refresh` | app/genie/page.tsx:153-155 | A list is replaced only by non-empty rows, and then by exactly those rows. So a non-empty list on screen never becomes empty. |
| `Genie.PicksShownWhateverMessages` | app/genie/page.tsx:153-155 | Non-empty picks rows are shown as returned, whatever the messages query gives. |
| `Genie.PicksKeptWithoutRows` | app/genie/page.tsx:153-155 | An empty, null or failing picks query keeps the picks on screen, whatever the messages query gives. |
| `Genie.MessagesFallBackAlone` | app/genie/page.tsx:157-164 | Once the picks query has not thrown, the messages shown are the messages rows when there are any, and the previous messages otherwise. |
| `Genie.PicksThrowKeepsMessages` | app/genie/page.tsx:147-168 | A throwing picks query skips the messages query, so the messages on screen stay. |
| `Genie.SamplesKeptWithoutRows` | app/genie/page.tsx:145-169 | From the first render, queries without rows leave the sample picks and messages on screen. |
| `Genie.LateFetchDropsSentMessage` | app/genie/page.tsx:162-164 | A fetch that resolves with rows after a send replaces the list, dropping the sent message. |
| `Genie.Edit` | app/genie/page.tsx:315 | Typing sets the box and changes nothing else: picks, messages and scheduled replies stay. |
| `Genie.SendMessage` | app/genie/page.tsx:176-189 | A blank box changes nothing. Otherwise exactly one user message with the untrimmed text is appended after all earlier ones. The box is cleared and one reply is scheduled. |
| `Genie.DeliverReply` | app/genie/page.tsx:190-199 | A scheduled reply appends one assistant message with the canned text. |
| `Genie.InitialBalanced` | app/genie/page.tsx:89-120 | At first render, user messages equal assistant messages plus scheduled replies. |
| `Genie.StepsKeepBalance` | app/genie/page.tsx:176-199 | Editing, sending and delivering keep every user message matched by a delivered or scheduled reply. |
| `ChatPage.Initial` | app/app/chat/page.tsx:12-14 | The chat starts empty, with an empty input and not loading. |
| `ChatPage.SubmitInput` | app/app/chat/page.tsx:29-36 | A blank input changes nothing. Otherwise one user message with the raw input is appended, the input is cleared and loading starts. |
| `ChatPage.Settle` | app/app/chat/page.tsx:38-56 | Settling appends exactly one assistant message, the greeting on success or the apology on error. Loading is then off. |
| `ChatPage.Step` | app/app/chat/page.tsx:92-103 | Disabled controls have no effect. Enabled typing sets the input, an enabled submit runs the submit handler, and a pending reply settles. Each event appends at most one message and never changes earlier ones. |
| `ChatPage.StepKeepsConsistent` | app/app/chat/page.tsx:29-56 | Messages keep alternating user/assistant, and loading holds exactly while the last request is unanswered. So at most one request is in flight. |
| `ChatPage.RunAppendOnly` | app/app/chat/page.tsx:34-53 | Over any run of events, messages are only appended, never removed or reordered, and the invariant holds. |
| `Settings.Default` | app/app/settings/page.tsx:22-27 | Defaults are e-mail on, push off, risk `medium`, and no sports. |
| `Settings.Apply` | app/app/settings/page.tsx:49-53 | A preference change sets exactly the named field and leaves every other field unchanged. |
| `Settings.ApplyIdempotentLastWins` | app/app/settings/page.tsx:49-53 | Repeating a change is harmless, and the later of two changes to the same field wins. |
| `Settings.Without` | app/app/settings/page.tsx:127 | Unchecking removes every occurrence of the sport and keeps the count of every other sport. |
| `Settings.WithoutAppend` | app/app/settings/page.tsx:127 | Filtering distributes over concatenation, so the remaining sports keep their relative order. |
| `Settings.ToggleSport` | app/app/settings/page.tsx:124-128 | Checking appends the sport at the end. Unchecking removes it. Other fields are untouched. |
| `Settings.Handle` | app/app/settings/page.tsx:83-128 | Each box or selector sets only its own field: the e-mail and push boxes set their flag, and the selector sets the risk level. A sport box for an unchecked sport appends it to the end of the existing favourites. For a checked sport it removes every occurrence, keeping the rest in order. Other fields stay unchanged. |
| `Settings.CheckThenUncheck` | app/app/settings/page.tsx:123-128 | Checking then unchecking a sport not in the list restores the original preferences. |
| `Settings.UncheckKeepsOrder` | app/app/settings/page.tsx:127 | Unchecking works piecewise on any split of the list, so order is preserved. |
| `Settings.HandleKeepsValid` | app/app/settings/page.tsx:105-134 | Every control the page renders keeps these properties: the risk level is low/medium/high, favourites are among the six sports, and no sport appears twice. |
| `Settings.DefaultValid` | app/app/settings/page.tsx:22-27 | The defaults satisfy those properties. |

## Left out

- Provider plumbing: Supabase client construction, cookie adapters and environment variables. Session presence and lookup failure are inputs to the guard.
- `database.py` and `app/main.py` are one-line wrappers over the tables and the odds HTTP API. The user table is a map and the odds feed is an input.
- Password hashing and checking are foreign. The hash is an input and the check is a predicate parameter.
- Missing form fields (`request.form.get` returning `None`) are not modelled: e-mails and names are strings.
- Prices are integers; `int()` applied to a float price is not modelled.
- Only JSON shapes the code reads are modelled. A feed that is not a list, or outcomes without `price`/`name`, are not.
- `Oracle.ChatApi`: the decremented quota is returned in the user record; the separate `update_user` write to the user table is that same record and is not modelled as a second map update.
- Timers, `Date.now()` ids and timestamps: ids and clock readings are inputs, and a timer firing is an explicit step.
- `Genie.DeliverReply` requires a scheduled reply, because a timer fires only after a send scheduled it.
- `Oracle.Run` and `Oracle.FreeQuotaBound` hand the decremented user to the next call, which assumes that the next request sees the updated row. As written, `load_user` looks up the session's user id as an e-mail (`get_user_by_email(user_id)`), so a logged-in user is found again only when the row's id equals its e-mail.
- `AuthFlow.Try`: an exception thrown by `router.push` or by the console logging is not modelled; only provider answers and rejected provider promises reach the `catch`.
- `ChatPage.Step`: a `Resolve` with no request in flight is not an event the page can receive, so it is a no-op.
- React rendering, styling, tabs, `app/layout.tsx` and `tailwind.config.ts` are presentation only.
- The session check and auth-change subscription in `app/app/layout.tsx`, and the per-page session checks, duplicate the guard and are provider plumbing.
- `app/app/page.tsx` only makes provider calls (OTP and sign-up).
- `app/app/dashboard/page.tsx`: its ordering and `.limit(10)` run in the store, and its average uses `Math.round` on untyped values.
- Sign-out handlers only call the provider and navigate to `/`.
- Strings are sequences of Unicode scalar values, not UTF-16 code units. `trim` is modelled with the ECMAScript white-space and line-terminator code points.

=== FILE: accounts.dfy ===
/** Account creation and sign-in of the Flask app (`app.py`, `signup` and
    `login`).  The user table is a map keyed by e-mail (what
    `get_user_by_email` looks up); password hashing and checking are
    foreign, so the hash of a new password is an input and the check is a
    predicate parameter. */
module Accounts {

  import opened Options

  /** Plan and quota every new account starts with. */
  const FreePlan := "free"
  const StarterPicks := 3

  const DuplicateEmailFlash := "Email already registered"
  const InvalidLoginFlash := "Invalid email or password"

  /** A row of the `users` table as `User.from_db` reads it.  The last pick
      date is kept as the text the row stores. */
  datatype User = User(
    id: string,
    email: string,
    name: string,
    phone: string,
    passwordHash: string,
    subscriptionType: string,
    lastPickDate: Option<string>,
    picksRemaining: int)

  type Store = map<string, User>

  /** Every row is filed under its own e-mail. */
  ghost predicate Keyed(store: Store) {
    forall e :: e in store ==> store[e].email == e
  }

  /** Where the handler sends the browser next. */
  datatype Next = ToSignup | ToDashboard | ShowLogin

  /** The effect of one POST: the new table, the logged-in user (the session
      left as it was when nobody is logged in by this request), the flashed
      message if any, and the next page. */
  datatype Response = Response(store: Store, session: Option<User>, flash: Option<string>, next: Next)

  /** The submitted sign-up form. */
  datatype SignupForm = SignupForm(email: string, name: string, phone: string, password: string)

  /** `POST /signup`.  `passwordHash` stands for `generate_password_hash`
      of the submitted password, `newId` for the id the table assigns and
      `now` for the creation time. */
  function Signup(store: Store, session: Option<User>, form: SignupForm,
                  passwordHash: string, newId: string, now: string): (r: Response)
    ensures form.email in store ==>
      r == Response(store, session, Some(DuplicateEmailFlash), ToSignup)
    ensures form.email !in store ==>
      && r.next == ToDashboard
      && r.flash.None?
      && r.store.Keys == store.Keys + {form.email}
      && (forall e :: e in store ==> r.store[e] == store[e])
      && r.session == Some(r.store[form.email])
      && r.store[form.email].subscriptionType == FreePlan
      && r.store[form.email].picksRemaining == StarterPicks
      && r.store[form.email].email == form.email
      && r.store[form.email].passwordHash == passwordHash
  {
    if form.email in store then
      Response(store, session, Some(DuplicateEmailFlash), ToSignup)
    else
      var user := User(newId, form.email, form.name, form.phone, passwordHash,
                       FreePlan, Some(now), StarterPicks);
      Response(store[form.email := user], Some(user), None, ToDashboard)
  }

  /** `POST /login`.  `check(hash, password)` stands for
      `check_password_hash`. */
  function Login(store: Store, session: Option<User>, email: string, password: string,
                 check: (string, string) -> bool): (r: Response)
    ensures r.store == store
    ensures r.next == ToDashboard <==> email in store && check(store[email].passwordHash, password)
    ensures r.next == ToDashboard ==> r.session == Some(store[email]) && r.flash.None?
    ensures r.next != ToDashboard ==>
      r.session == session && r.flash == Some(InvalidLoginFlash) && r.next == ShowLogin
  {
    if email in store && check(store[email].passwordHash, password) then
      Response(store, Some(store[email]), None, ToDashboard)
    else
      Response(store, session, Some(InvalidLoginFlash), ShowLogin)
  }

  /** Sign-up keeps every row filed under its own e-mail. */
  lemma SignupKeepsKeyed(store: Store, session: Option<User>, form: SignupForm,
                         passwordHash: string, newId: string, now: string)
    requires Keyed(store)
    ensures Keyed(Signup(store, session, form, passwordHash, newId, now).store)
  {
  }

  /** A second sign-up with the same e-mail is turned away and changes
      nothing, whatever the other fields say. */
  lemma SignupTwiceRejected(store: Store, session: Option<User>, form: SignupForm, again: SignupForm,
                            h1: string, h2: string, id1: string, id2: string, t1: string, t2: string)
    requires again.email == form.email
    ensures var first := Signup(store, session, form, h1, id1, t1);
            var second := Signup(first.store, first.session, again, h2, id2, t2);
            second.store == first.store && second.next == ToSignup
            && second.flash == Some(DuplicateEmailFlash)
  {
  }

  /** After signing up, signing in with the same password succeeds and logs
      in the new row, provided the password check accepts the hash made from
      that password. */
  lemma SignupThenLogin(store: Store, session: Option<User>, form: SignupForm,
                        passwordHash: string, newId: string, now: string,
                        check: (string, string) -> bool)
    requires form.email !in store
    requires check(passwordHash, form.password)
    ensures var up := Signup(store, session, form, passwordHash, newId, now);
            var r := Login(up.store, None, form.email, form.password, check);
            r.next == ToDashboard && r.session == up.session
  {
  }
}

=== FILE: auth_flow.dfy ===
/** The sign-up / sign-in form of the entry page (`app/page.tsx`,
    `handleAuth`).  The identity provider is abstracted to the answers it
    gives: the sign-up answer and the answer of a password sign-in (the flow
    signs in at most once per attempt, so one answer suffices).  Either
    answer may also be a rejected promise. */
module AuthFlow {

  import opened Options
  import opened Text

  /** Where a successful attempt sends the browser. */
  const GeniePath := "/genie"

  /** Text shown when a caught error has an empty message. */
  const FallbackText := "Authentication failed. Please check your credentials and try again."

  /** The sign-up error text that triggers the sign-in fallback. */
  const AlreadyRegistered := "already registered"

  const FreePlan := "free"

  /** The provider's answer to `signUp`: an error message, success with or
      without a user object, or a rejected promise whose error carries a
      message. */
  datatype SignUpAnswer = SignUpFailed(message: string) | SignedUp(hasUser: bool) | SignUpThrew(message: string)

  /** The provider's answer to `signInWithPassword`: accepted, an error
      message, or a rejected promise whose error carries a message. */
  datatype SignInAnswer = SignedIn | SignInFailed(message: string) | SignInThrew(message: string)

  /** A call made to the provider, with the arguments that matter. */
  datatype Call =
    | SignUpCall(email: string, password: string, username: string, plan: string)
    | SignInCall(email: string, password: string)

  /** Local state of the form. */
  datatype Form = Form(email: string, password: string, loading: bool, message: string, isSignUp: bool)

  /** The effect of one submitted attempt: the calls made in order, where
      the router was pushed (if anywhere), and the form afterwards. */
  datatype Attempt = Attempt(calls: seq<Call>, navigate: Option<string>, form: Form)

  /** `error.message || 'Authentication failed…'`. */
  function ErrorText(message: string): (t: string)
    ensures t != []
    ensures message != [] ==> t == message
    ensures message == [] ==> t == FallbackText
  {
    if message == [] then FallbackText else message
  }

  /** `email.split('@')[0]`, stored as the new account's user name. */
  function Username(email: string): (u: string)
    ensures '@' !in u && StartsWith(email, u)
    ensures '@' !in email ==> u == email
    ensures '@' in email ==> |u| < |email| && email[|u|] == '@'
  {
    BeforeFirstIsFirstSplit(email, '@');
    BeforeFirst(email, '@')
  }

  /** The first lines of the handler: loading on, message cleared. */
  function Begin(f: Form): (g: Form)
    ensures g.loading && g.message == []
    ensures g.email == f.email && g.password == f.password && g.isSignUp == f.isSignUp
  {
    f.(loading := true, message := [])
  }

  /** What the `try`/`catch` does: the calls, the navigation target and the
      message set by the `catch` (`None` when nothing is thrown).  Both a
      returned error that the code rethrows and a rejected await end in the
      `catch`. */
  datatype Outcome = Outcome(calls: seq<Call>, navigate: Option<string>, caught: Option<string>)

  function Try(f: Form, signUp: SignUpAnswer, signIn: SignInAnswer): (o: Outcome)
    ensures 1 <= |o.calls| <= 2
    ensures f.isSignUp ==> o.calls[0] == SignUpCall(f.email, f.password, Username(f.email), FreePlan)
    ensures !f.isSignUp ==> o.calls == [SignInCall(f.email, f.password)]
    ensures |o.calls| == 2 ==> o.calls[1] == SignInCall(f.email, f.password)
    ensures f.isSignUp && signUp == SignedUp(true) ==> |o.calls| == 2
    ensures f.isSignUp && signUp.SignedUp? && !signUp.hasUser ==> |o.calls| == 1
    ensures o.navigate.Some? ==> o.navigate == Some(GeniePath) && o.caught.None? && signIn.SignedIn?
    ensures signIn.SignInThrew? && SignInCall(f.email, f.password) in o.calls ==> o.caught == Some(signIn.message)
    ensures signUp.SignUpThrew? && f.isSignUp ==> o == Outcome(o.calls, None, Some(signUp.message)) && |o.calls| == 1
  {
    var signInCall := SignInCall(f.email, f.password);
    if f.isSignUp then
      var signUpCall := SignUpCall(f.email, f.password, Username(f.email), FreePlan);
      match signUp
      case SignUpThrew(message) => Outcome([signUpCall], None, Some(message))
      case SignUpFailed(message) =>
        if Includes(message, AlreadyRegistered) then
          match signIn
          case SignedIn => Outcome([signUpCall, signInCall], Some(GeniePath), None)
          case SignInFailed(e) => Outcome([signUpCall, signInCall], None, Some(e))
          case SignInThrew(e) => Outcome([signUpCall, signInCall], None, Some(e))
        else
          Outcome([signUpCall], None, Some(message))
      case SignedUp(hasUser) =>
        if hasUser then
          match signIn
          case SignedIn => Outcome([signUpCall, signInCall], Some(GeniePath), None)
          case SignInFailed(_) => Outcome([signUpCall, signInCall], None, None)
          case SignInThrew(e) => Outcome([signUpCall, signInCall], None, Some(e))
        else
          Outcome([signUpCall], None, None)
    else
      match signIn
      case SignedIn => Outcome([signInCall], Some(GeniePath), None)
      case SignInFailed(e) => Outcome([signInCall], None, Some(e))
      case SignInThrew(e) => Outcome([signInCall], None, Some(e))
  }

  /** The whole handler: begin, try, catch into the message, and the
      `finally` that turns loading off. */
  function HandleAuth(f: Form, signUp: SignUpAnswer, signIn: SignInAnswer): (a: Attempt)
    ensures !a.form.loading
    ensures a.form.email == f.email && a.form.password == f.password && a.form.isSignUp == f.isSignUp
    ensures a.navigate.Some? ==> a.navigate == Some(GeniePath) && a.form.message == []
    ensures a.form.message != [] ==> a.navigate.None?
  {
    var o := Try(Begin(f), signUp, signIn);
    var message := match o.caught case Some(e) => ErrorText(e) case None => [];
    Attempt(o.calls, o.navigate, Begin(f).(loading := false, message := message))
  }

  /** The browser is sent to the genie page exactly when a password sign-in
      was attempted and the provider accepted it. */
  lemma NavigateIffSignInAccepted(f: Form, signUp: SignUpAnswer, signIn: SignInAnswer)
    ensures var a := HandleAuth(f, signUp, signIn);
            a.navigate.Some? <==> SignInCall(f.email, f.password) in a.calls && signIn.SignedIn?
  {
  }

  /** Sign-in mode: navigate exactly when sign-in is accepted, and otherwise
      show the text of the returned or thrown error. */
  lemma SignInMode(f: Form, signUp: SignUpAnswer, signIn: SignInAnswer)
    requires !f.isSignUp
    ensures var a := HandleAuth(f, signUp, signIn);
            && a.calls == [SignInCall(f.email, f.password)]
            && (a.navigate == Some(GeniePath) <==> signIn.SignedIn?)
            && (!signIn.SignedIn? ==> a.form.message == ErrorText(signIn.message))
  {
  }

  /** Sign-up mode, an "already registered" error: fall back to a password
      sign-in, navigate on success and show the sign-in error on failure. */
  lemma AlreadyRegisteredFallsBack(f: Form, message: string, signIn: SignInAnswer)
    requires f.isSignUp && Includes(message, AlreadyRegistered)
    ensures var a := HandleAuth(f, SignUpFailed(message), signIn);
            && |a.calls| == 2 && a.calls[1] == SignInCall(f.email, f.password)
            && (signIn.SignedIn? ==> a.navigate == Some(GeniePath))
            && (!signIn.SignedIn? ==> a.navigate.None? && a.form.message == ErrorText(signIn.message))
  {
  }

  /** Sign-up mode, any other error: show it, no sign-in, no navigation. */
  lemma OtherSignUpErrorShown(f: Form, message: string, signIn: SignInAnswer)
    requires f.isSignUp && !Includes(message, AlreadyRegistered)
    ensures var a := HandleAuth(f, SignUpFailed(message), signIn);
            a.navigate.None? && a.form.message == ErrorText(message) && |a.calls| == 1
  {
  }

  /** A rejected sign-up goes straight to the `catch`: even an "already
      registered" text in its error triggers no fallback sign-in. */
  lemma RejectedSignUpSkipsFallback(f: Form, message: string, signIn: SignInAnswer)
    requires f.isSignUp
    ensures var a := HandleAuth(f, SignUpThrew(message), signIn);
            && a.calls == [SignUpCall(f.email, f.password, Username(f.email), FreePlan)]
            && a.navigate.None? && a.form.message == ErrorText(message)
  {
  }

  /** Sign-up mode's main path: a sign-up that returns a user is followed by
      a password sign-in, and an accepted sign-in sends the browser to the
      genie page with nothing shown. */
  lemma SignUpThenAutoSignIn(f: Form)
    requires f.isSignUp
    ensures var a := HandleAuth(f, SignedUp(true), SignedIn);
            && a.calls == [SignUpCall(f.email, f.password, Username(f.email), FreePlan), SignInCall(f.email, f.password)]
            && a.navigate == Some(GeniePath) && a.form.message == []
  {
  }

  /** Sign-up succeeds but returns no user, or the automatic sign-in returns
      an error: nothing is shown and nothing happens, even if a message was
      on screen before. */
  lemma SilentOutcomes(f: Form, hasUser: bool, signIn: SignInAnswer)
    requires f.isSignUp
    requires !hasUser || signIn.SignInFailed?
    ensures var a := HandleAuth(f, SignedUp(hasUser), signIn);
            a.navigate.None? && a.form.message == []
  {
  }

  /** An automatic sign-in whose promise rejects is not silent: its error
      reaches the `catch` and is shown. */
  lemma RejectedAutoSignInShown(f: Form, message: string)
    requires f.isSignUp
    ensures var a := HandleAuth(f, SignedUp(true), SignInThrew(message));
            a.navigate.None? && a.form.message == ErrorText(message) && |a.calls| == 2
  {
  }

  /** Every sign-up call carries the e-mail prefix before the first `@` as
      the user name and the free plan. */
  lemma SignUpMetadata(f: Form, signUp: SignUpAnswer, signIn: SignInAnswer)
    requires f.isSignUp
    ensures var a := HandleAuth(f, signUp, signIn);
            && a.calls[0] == SignUpCall(f.email, f.password, Username(f.email), FreePlan)
            && '@' !in a.calls[0].username
            && StartsWith(f.email, a.calls[0].username)
  {
  }
}

=== FILE: chat_page.dfy ===
/** The chat page of the signed-in area (`app/app/chat/page.tsx`): a local
    message list, a text box and a loading flag.  The awaited reply is an
    explicit resolution step that succeeds or fails. */
module ChatPage {

  import opened Roles
  import opened Text

  const GreetingText := "I am WagerGenie, your AI betting assistant. How can I help you today?"
  const ApologyText := "Sorry, I encountered an error. Please try again."

  datatype Message = Message(role: Role, content: string)

  /** `messages`, `input` and `isLoading` of the page. */
  datatype Chat = Chat(messages: seq<Message>, input: string, isLoading: bool)

  /** What can happen on the page: typing, submitting the form, and the
      awaited reply settling (successfully or with an exception). */
  datatype Event = Type(text: string) | Submit | Resolve(ok: bool)

  /** The page as first rendered. */
  function Initial(): (c: Chat)
    ensures c.messages == [] && c.input == [] && !c.isLoading
  {
    Chat([], [], false)
  }

  /** The synchronous part of `handleSubmit`: input made only of white
      space changes nothing; any other input is sent as typed, untrimmed,
      the box is cleared and a request starts. */
  function SubmitInput(c: Chat): (d: Chat)
    ensures Blank(c.input) ==> d == c
    ensures !Blank(c.input) ==>
      d == Chat(c.messages + [Message(UserRole, c.input)], [], true)
  {
    TrimEmptyIffBlank(c.input);
    if Trim(c.input) == [] then c
    else Chat(c.messages + [Message(UserRole, c.input)], [], true)
  }

  /** The rest of `handleSubmit` once the awaited reply settles: one
      assistant message, and loading off in `finally`. */
  function Settle(c: Chat, ok: bool): (d: Chat)
    ensures d.messages == c.messages + [Message(AssistantRole, if ok then GreetingText else ApologyText)]
    ensures !d.isLoading && d.input == c.input
  {
    var reply := if ok then GreetingText else ApologyText;
    c.(messages := c.messages + [Message(AssistantRole, reply)], isLoading := false)
  }

  /** Which events the page can receive: the text box and the send button
      are disabled while loading, and only a pending request can settle. */
  predicate Enabled(c: Chat, e: Event) {
    match e
    case Type(_) => !c.isLoading
    case Submit => !c.isLoading
    case Resolve(_) => c.isLoading
  }

  /** One event; an event the page cannot receive leaves it unchanged. */
  function Step(c: Chat, e: Event): (d: Chat)
    ensures !Enabled(c, e) ==> d == c
    ensures Enabled(c, e) && e.Type? ==> d == c.(input := e.text)
    ensures Enabled(c, e) && e.Submit? ==> d == SubmitInput(c)
    ensures Enabled(c, e) && e.Resolve? ==> d == Settle(c, e.ok)
    ensures |c.messages| <= |d.messages| <= |c.messages| + 1
    ensures d.messages[..|c.messages|] == c.messages
  {
    if !Enabled(c, e) then c
    else
      match e
      case Type(text) => c.(input := text)
      case Submit => SubmitInput(c)
      case Resolve(ok) => Settle(c, ok)
  }

  /** Messages alternate question and answer, starting with a question. */
  ghost predicate Alternating(ms: seq<Message>) {
    forall i :: 0 <= i < |ms| ==> ms[i].role == (if i % 2 == 0 then UserRole else AssistantRole)
  }

  /** The page's invariant: every request but the last is answered, and the
      last is unanswered exactly while loading, so at most one request is in
      flight. */
  ghost predicate Consistent(c: Chat) {
    Alternating(c.messages) && (c.isLoading <==> |c.messages| % 2 == 1)
  }

  lemma InitialConsistent()
    ensures Consistent(Initial())
  {
  }

  /** Every event keeps the invariant. */
  lemma StepKeepsConsistent(c: Chat, e: Event)
    requires Consistent(c)
    ensures Consistent(Step(c, e))
  {
    if Enabled(c, e) {
      match e
      case Type(_) =>
      case Submit => SubmitKeepsConsistent(c);
      case Resolve(ok) => SettleKeepsConsistent(c, ok);
    }
  }

  lemma SubmitKeepsConsistent(c: Chat)
    requires Consistent(c) && !c.isLoading
    ensures Consistent(SubmitInput(c))
  {
    if !Blank(c.input) {
      AppendKeepsAlternating(c.messages, Message(UserRole, c.input));
    }
  }

  lemma SettleKeepsConsistent(c: Chat, ok: bool)
    requires Consistent(c) && c.isLoading
    ensures Consistent(Settle(c, ok))
  {
    AppendKeepsAlternating(c.messages, Message(AssistantRole, if ok then GreetingText else ApologyText));
  }

  lemma AppendKeepsAlternating(ms: seq<Message>, m: Message)
    requires Alternating(ms)
    requires m.role == (if |ms| % 2 == 0 then UserRole else AssistantRole)
    ensures Alternating(ms + [m])
  {
  }

  /** A run of events. */
  function Run(c: Chat, es: seq<Event>): Chat
    decreases |es|
  {
    if |es| == 0 then c else Run(Step(c, es[0]), es[1..])
  }

  /** Over any run the messages only grow at the end, and the invariant
      holds throughout. */
  lemma {:induction false} RunAppendOnly(c: Chat, es: seq<Event>)
    requires Consistent(c)
    ensures var d := Run(c, es);
            |c.messages| <= |d.messages| && d.messages[..|c.messages|] == c.messages && Consistent(d)
    decreases |es|
  {
    if |es| > 0 {
      var mid := Step(c, es[0]);
      StepKeepsConsistent(c, es[0]);
      RunAppendOnly(mid, es[1..]);
      var d := Run(mid, es[1..]);
      assert d.messages[..|c.messages|] == d.messages[..|mid.messages|][..|c.messages|];
    }
  }
}

=== FILE: genie.dfy ===
/** The genie page (`app/genie/page.tsx`): the built-in sample picks and
    messages, the fetch that replaces them only with non-empty results, the
    pick badge, and the chat stub whose reply is delivered by a timer.  The
    timer is an explicit delivery step; clock readings and ids are inputs. */
module Genie {

  import opened Options
  import opened Roles
  import opened Text

  /** The stub reply, ending in the genie emoji. */
  const ReplyText := "I'm analyzing the latest data for your request. I'll have a detailed prediction ready shortly! \U{1F9DE}\U{200D}\U{2642}\U{FE0F}"

  /** Badge text of a pick without a result. */
  const NoResultBadge := "Pending"

  datatype PickResult = Win | Loss | Pending

  /** A pick row; `result` is optional in the row's type. */
  datatype Pick = Pick(id: string, sport: string, matchup: string, prediction: string,
                       confidence: int, result: Option<PickResult>, explanation: string, date: string)

  /** A chat message; `timestamp` is in milliseconds. */
  datatype Message = Message(id: string, content: string, role: Role, timestamp: int)

  /** Page state: the lists shown, the text box, and how many stub replies
      are scheduled but not yet delivered. */
  datatype Page = Page(picks: seq<Pick>, messages: seq<Message>, newMessage: string, scheduled: nat)

  /** What a query gave: rows, no data (`data` is null), or an exception. */
  datatype Fetch<T> = Rows(rows: seq<T>) | NoData | Threw

  /** The six sample picks, all dated `today`. */
  function SamplePicks(today: string): (ps: seq<Pick>)
    ensures |ps| == 6
    ensures forall i :: 0 <= i < |ps| ==> 0 <= ps[i].confidence <= 100 && ps[i].result.Some?
    ensures forall i, j :: 0 <= i < j < |ps| ==> ps[i].id != ps[j].id
  {
    [ Pick("1", "NFL", "Kansas City Chiefs vs. Baltimore Ravens", "Chiefs -3.5", 85, Some(Win),
           "Chiefs offense has been unstoppable at home.", today),
      Pick("2", "NBA", "Boston Celtics vs. Los Angeles Lakers", "Over 219.5", 78, Some(Pending),
           "Both teams have been scoring at high rates in their last 5 games.", today),
      Pick("3", "MLB", "New York Yankees vs. Houston Astros", "Yankees ML", 72, Some(Pending),
           "Yankees are starting their ace pitcher with a strong home record.", today),
      Pick("4", "UFC", "Jon Jones vs. Stipe Miocic", "Jones by KO/TKO", 81, Some(Pending),
           "Jones has significant reach and striking advantages.", today),
      Pick("5", "NHL", "Toronto Maple Leafs vs. Montreal Canadiens", "Under 5.5 Goals", 76, Some(Loss),
           "Both teams have strong goalies and have played low-scoring games recently.", today),
      Pick("6", "Soccer", "Manchester City vs. Liverpool", "Both Teams to Score", 88, Some(Win),
           "Both teams are offensive powerhouses with some defensive weaknesses.", today) ]
  }

  /** Texts of the four sample messages. */
  const SampleText1 := "Hi, I need some good picks for NFL games this weekend"
  const SampleText2 := "I've analyzed the upcoming NFL matchups and have three strong recommendations for you. The Chiefs are favored at home against the Bengals, and I'm seeing value in taking the Chiefs to cover. The Bills vs Jets game looks like it will be a low-scoring affair, so consider the under. And for a value pick, the Lions have a good chance to upset the Vikings based on current form."
  const SampleText3 := "Thanks! What about NBA games tonight?"
  const SampleText4 := "For NBA games tonight, I like the Celtics to cover against the Lakers. The Celtics' perimeter defense matches up well against the Lakers' shooters. The Bucks vs 76ers game has value on the over, as both teams have been scoring well and have defensive injuries. I'd avoid the Suns vs Warriors game as it's too unpredictable with recent roster changes."

  /** The four sample messages, stamped relative to `now`. */
  function SampleMessages(now: int): (ms: seq<Message>)
    ensures |ms| == 4
    ensures forall i :: 0 <= i < |ms| ==> ms[i].role == (if i % 2 == 0 then UserRole else AssistantRole)
    ensures forall i, j :: 0 <= i < j < |ms| ==> ms[i].timestamp < ms[j].timestamp
  {
    [ Message("1", SampleText1, UserRole, now - 3600000),
      Message("2", SampleText2,
              AssistantRole, now - 3500000),
      Message("3", SampleText3, UserRole, now - 1800000),
      Message("4", SampleText4,
              AssistantRole, now - 1700000) ]
  }

  /** The page as first rendered. */
  function Initial(now: int, today: string): (p: Page)
    ensures p.picks == SamplePicks(today) && p.messages == SampleMessages(now)
    ensures p.newMessage == [] && p.scheduled == 0
  {
    Page(SamplePicks(today), SampleMessages(now), [], 0)
  }

  /** The badge: the result when there is one, otherwise "Pending". */
  function Badge(p: Pick): (b: string)
    ensures b == NoResultBadge <==> p.result.None?
    ensures b == "win" <==> p.result == Some(Win)
    ensures b == "loss" <==> p.result == Some(Loss)
    ensures b == "pending" <==> p.result == Some(Pending)
  {
    match p.result
    case None => NoResultBadge
    case Some(Win) => "win"
    case Some(Loss) => "loss"
    case Some(Pending) => "pending"
  }

  /** A query gave at least one row. */
  predicate HasRows<T>(f: Fetch<T>) {
    f.Rows? && |f.rows| > 0
  }

  /** Replaces `current` only with a non-empty list of rows, so a list on
      screen never empties. */
  function Refresh<T>(current: seq<T>, f: Fetch<T>): (r: seq<T>)
    ensures HasRows(f) ==> r == f.rows
    ensures !HasRows(f) ==> r == current
    ensures |current| > 0 ==> |r| > 0
  {
    if f.Rows? && |f.rows| > 0 then f.rows else current
  }

  /** `fetchData`: picks first, then messages; when the picks query throws,
      the messages query is never made.  Each list falls back on its own. */
  function FetchData(p: Page, picks: Fetch<Pick>, messages: Fetch<Message>): (q: Page)
    ensures q.newMessage == p.newMessage && q.scheduled == p.scheduled
    ensures picks.Threw? ==> q == p
    ensures HasRows(picks) ==> q.picks == picks.rows
    ensures !HasRows(picks) ==> q.picks == p.picks
    ensures !picks.Threw? && HasRows(messages) ==> q.messages == messages.rows
    ensures !HasRows(messages) ==> q.messages == p.messages
  {
    if picks.Threw? then p
    else
      var p1 := p.(picks := Refresh(p.picks, picks));
      if messages.Threw? then p1 else p1.(messages := Refresh(p1.messages, messages))
  }

  /** Editing the text box. */
  function Edit(p: Page, text: string): (q: Page)
    ensures q.newMessage == text && q.messages == p.messages && q.scheduled == p.scheduled
    ensures q.picks == p.picks
  {
    p.(newMessage := text)
  }

  /** `handleSendMessage`: with `id` and `now` from the clock. */
  function SendMessage(p: Page, id: string, now: int): (q: Page)
    ensures Blank(p.newMessage) ==> q == p
    ensures !Blank(p.newMessage) ==>
      && q.messages == p.messages + [Message(id, p.newMessage, UserRole, now)]
      && q.newMessage == []
      && q.scheduled == p.scheduled + 1
      && q.picks == p.picks
  {
    TrimEmptyIffBlank(p.newMessage);
    if Trim(p.newMessage) == [] then p
    else p.(messages := p.messages + [Message(id, p.newMessage, UserRole, now)],
            newMessage := [], scheduled := p.scheduled + 1)
  }

  /** The timer of one earlier send fires. */
  function DeliverReply(p: Page, id: string, now: int): (q: Page)
    requires p.scheduled > 0
    ensures q.messages == p.messages + [Message(id, ReplyText, AssistantRole, now)]
    ensures q.scheduled == p.scheduled - 1
    ensures q.newMessage == p.newMessage && q.picks == p.picks
  {
    p.(messages := p.messages + [Message(id, ReplyText, AssistantRole, now)], scheduled := p.scheduled - 1)
  }

  /** Number of messages by `role`. */
  function CountRole(ms: seq<Message>, role: Role): nat
    decreases |ms|
  {
    if |ms| == 0 then 0
    else CountRole(ms[..|ms| - 1], role) + (if ms[|ms| - 1].role == role then 1 else 0)
  }

  /** Every sent message has either been answered or has a reply scheduled. */
  ghost predicate Balanced(p: Page) {
    CountRole(p.messages, UserRole) == CountRole(p.messages, AssistantRole) + p.scheduled
  }

  lemma CountAppend(ms: seq<Message>, m: Message, role: Role)
    ensures CountRole(ms + [m], role) == CountRole(ms, role) + (if m.role == role then 1 else 0)
  {
    assert (ms + [m])[..|ms|] == ms;
  }

  /** A conversation that alternates question, answer, question, … has one
      more question than answers when its length is odd, and as many
      otherwise. */
  lemma {:induction false} AlternatingCounts(ms: seq<Message>)
    requires forall i :: 0 <= i < |ms| ==> ms[i].role == (if i % 2 == 0 then UserRole else AssistantRole)
    ensures CountRole(ms, UserRole) == CountRole(ms, AssistantRole) + |ms| % 2
    decreases |ms|
  {
    if |ms| > 0 {
      var init := ms[..|ms| - 1];
      AlternatingCounts(init);
      assert init + [ms[|ms| - 1]] == ms;
      CountAppend(init, ms[|ms| - 1], UserRole);
      CountAppend(init, ms[|ms| - 1], AssistantRole);
    }
  }

  /** The first render is balanced: two questions, two answers, nothing
      scheduled. */
  lemma InitialBalanced(now: int, today: string)
    ensures Balanced(Initial(now, today))
  {
    AlternatingCounts(SampleMessages(now));
  }

  /** Sending, editing and delivering keep every sent message matched by a
      delivered or scheduled reply. */
  lemma StepsKeepBalance(p: Page, text: string, id: string, now: int)
    requires Balanced(p)
    ensures Balanced(Edit(p, text))
    ensures Balanced(SendMessage(p, id, now))
    ensures p.scheduled > 0 ==> Balanced(DeliverReply(p, id, now))
  {
    CountAppend(p.messages, Message(id, p.newMessage, UserRole, now), UserRole);
    CountAppend(p.messages, Message(id, p.newMessage, UserRole, now), AssistantRole);
    CountAppend(p.messages, Message(id, ReplyText, AssistantRole, now), UserRole);
    CountAppend(p.messages, Message(id, ReplyText, AssistantRole, now), AssistantRole);
  }

  /** Picks rows are shown as returned, in their order, whatever the
      messages query gives and whatever the page showed. */
  lemma PicksShownWhateverMessages(p: Page, rows: seq<Pick>, messages: Fetch<Message>)
    requires |rows| > 0
    ensures FetchData(p, Rows(rows), messages).picks == rows
  {
  }

  /** A picks query without rows (empty, null or throwing) keeps the picks
      on screen, whatever the messages query gives. */
  lemma PicksKeptWithoutRows(p: Page, picks: Fetch<Pick>, messages: Fetch<Message>)
    requires !HasRows(picks)
    ensures FetchData(p, picks, messages).picks == p.picks
  {
  }

  /** Once the picks query has not thrown, the messages shown are the
      messages rows when there are any and the previous messages otherwise,
      whatever the picks query gave. */
  lemma MessagesFallBackAlone(p: Page, picks: Fetch<Pick>, messages: Fetch<Message>)
    requires !picks.Threw?
    ensures var q := FetchData(p, picks, messages);
            && (HasRows(messages) ==> q.messages == messages.rows)
            && (!HasRows(messages) ==> q.messages == p.messages)
  {
  }

  /** A throwing picks query keeps the messages too, even when the messages
      query would have returned rows. */
  lemma PicksThrowKeepsMessages(p: Page, messages: Fetch<Message>)
    ensures FetchData(p, Threw, messages).messages == p.messages
  {
  }

  /** From the first render, queries without rows leave the samples shown. */
  lemma SamplesKeptWithoutRows(now: int, today: string, picks: Fetch<Pick>, messages: Fetch<Message>)
    requires !HasRows(picks) && !HasRows(messages)
    ensures FetchData(Initial(now, today), picks, messages) == Initial(now, today)
  {
  }

  /** A late fetch with rows replaces the list wholesale, dropping a
      message sent before it resolved. */
  lemma LateFetchDropsSentMessage(p: Page, id: string, now: int, rows: seq<Message>)
    requires !Blank(p.newMessage) && |rows| > 0
    ensures FetchData(SendMessage(p, id, now), NoData, Rows(rows)).messages == rows
  {
  }
}

=== FILE: guard.dfy ===
/** The route guard that runs before every matched request (`middleware.ts`).
    The session provider is abstracted to the outcome of one lookup, and the
    request to its path and its `error` query parameter. */
module Guard {

  import opened Options
  import opened Text

  /** Public entry page, the landing page after sign-in, and the two
      paths the guard treats specially. */
  const EntryPath := "/"
  const CallbackPath := "/auth/callback"
  const LandingPath := "/app/dashboard"
  const ProtectedPrefix := "/app"

  /** The error text attached when the session lookup throws. */
  const LookupErrorText := "An error occurred during authentication"

  /** What `supabase.auth.getSession()` produced for this request. */
  datatype Lookup = NoSession | Session | LookupThrew

  /** The response: pass the request through, or redirect to `target`
      carrying an optional `error` query parameter and nothing else. */
  datatype Decision = Pass | Redirect(target: string, error: Option<string>)

  /** The paths the guard is configured to run on: `/`, `/app/:path*` and
      `/auth/callback`. */
  predicate Matched(path: string) {
    path == EntryPath || path == CallbackPath || path == ProtectedPrefix || StartsWith(path, "/app/")
  }

  /** The guard's decision for one request.  `error` is the inbound `error`
      query parameter (`None` when the request has none). */
  function Middleware(path: string, error: Option<string>, lookup: Lookup): (d: Decision)
    ensures d.Redirect? ==> d.target == EntryPath || d.target == LandingPath
    ensures d.Redirect? && d.target == LandingPath ==> d.error.None? && lookup == Session
    ensures d.Redirect? && d.error.Some? ==> d.error == error || d.error == Some(LookupErrorText)
    ensures lookup == Session && d.Redirect? ==> path == EntryPath || path == CallbackPath
  {
    match lookup
    case LookupThrew => Redirect(EntryPath, Some(LookupErrorText))
    case NoSession =>
      if StartsWith(path, ProtectedPrefix) then Redirect(EntryPath, error) else Pass
    case Session =>
      if path == EntryPath || path == CallbackPath then Redirect(LandingPath, None) else Pass
  }

  /** The whole request pipeline: requests outside the matcher never reach
      the guard. */
  function Route(path: string, error: Option<string>, lookup: Lookup): (d: Decision)
    ensures !Matched(path) ==> d == Pass
    ensures Matched(path) ==> d == Middleware(path, error, lookup)
    ensures d.Redirect? ==> path == EntryPath || path == CallbackPath || path == ProtectedPrefix || StartsWith(path, "/app/")
  {
    if Matched(path) then Middleware(path, error, lookup) else Pass
  }

  /** Signed out on a protected path: redirect to the entry page, copying the
      inbound error parameter unchanged (and adding none when there is none). */
  lemma SignedOutProtectedRedirects(path: string, error: Option<string>)
    requires StartsWith(path, ProtectedPrefix)
    ensures Middleware(path, error, NoSession) == Redirect(EntryPath, error)
  {
  }

  /** Signed in on the entry page or the auth callback: redirect to the
      dashboard with no error parameter. */
  lemma SignedInEntryRedirects(path: string, error: Option<string>)
    requires path == EntryPath || path == CallbackPath
    ensures Middleware(path, error, Session) == Redirect(LandingPath, None)
  {
  }

  /** A failed lookup redirects to the entry page with the fixed error text,
      whatever the path and whatever error the request already carried. */
  lemma LookupFailureRedirects(path: string, error: Option<string>)
    ensures Middleware(path, error, LookupThrew) == Redirect(EntryPath, Some(LookupErrorText))
  {
  }

  /** Exactly two kinds of matched request pass through: signed in on a
      protected path, and signed out on the entry page or the callback. */
  lemma MatchedPassIff(path: string, error: Option<string>, lookup: Lookup)
    requires Matched(path)
    ensures Route(path, error, lookup) == Pass <==>
      || (lookup == Session && StartsWith(path, ProtectedPrefix))
      || (lookup == NoSession && (path == EntryPath || path == CallbackPath))
  {
    MatchedPrefixIsSegment(path);
    // `/auth/callback` and `/app` differ at index 2 ('u' against 'p').
    assert CallbackPath[..4][2] != ProtectedPrefix[2];
  }

  /** The protected test is a bare prefix test: a path that merely begins
      with the letters `/app` is redirected by the guard, but the matcher
      keeps such a path away from the guard, so the request passes. */
  lemma PrefixTestNotSegmentTest()
    ensures Middleware("/application", None, NoSession) == Redirect(EntryPath, None)
    ensures Route("/application", None, NoSession) == Pass
  {
    assert "/application"[..4] == ProtectedPrefix;
    assert "/application"[..5][4] != "/app/"[4];
  }

  /** Among matched paths the prefix test agrees with segment matching. */
  lemma MatchedPrefixIsSegment(path: string)
    requires Matched(path)
    ensures StartsWith(path, ProtectedPrefix) <==> path == ProtectedPrefix || StartsWith(path, "/app/")
  {
    assert StartsWith(path, "/app/") ==> path[..4] == "/app/"[..4];
    // `/auth/callback` and `/app` differ at index 2 ('u' against 'p').
    assert CallbackPath[..4][2] != ProtectedPrefix[2];
  }

  /** No redirect loop while the lookup succeeds: following a redirect with
      the same session state reaches a page the guard lets through. */
  lemma NoRedirectLoop(path: string, error: Option<string>, lookup: Lookup)
    requires lookup != LookupThrew
    requires Middleware(path, error, lookup).Redirect?
    ensures Route(Middleware(path, error, lookup).target, Middleware(path, error, lookup).error, lookup) == Pass
  {
    assert LandingPath[..4] == ProtectedPrefix;
    assert LandingPath[..5] == "/app/";
  }

  /** While the lookup keeps throwing, the entry page redirects to itself. */
  lemma FailingLookupRedirectsToItself(error: Option<string>)
    ensures var d := Middleware(EntryPath, error, LookupThrew);
            d.Redirect? && Route(d.target, d.error, LookupThrew) == d
  {
  }
}

=== FILE: options.dfy ===
/** Optional values: a JSON key that may be absent, a query parameter that may be
    missing, a provider call that may or may not report an error. */
module Options {

  datatype Option<+T> = None | Some(value: T) {

    /** The wrapped value, or `default` when there is none (Python's `d.get(k, default)`). */
    function GetOr(default: T): T {
      match this
      case Some(v) => v
      case None => default
    }
  }
}

=== FILE: oracle.dfy ===
/** The pick endpoint of the Flask app (`app.py`, `chat_api`): the free
    quota gate, the choice of the favourite from the first event's
    head-to-head prices, the confidence clamp, the American odds text, the
    quota decrement and the stored pick.  The odds feed is an input: `None`
    stands for a failed request, and the JSON objects are datatypes whose
    optional keys are `Option`s. */
module Oracle {

  import opened Options
  import opened Text
  import Accounts

  const QuotaText := "I apologize, mighty one! You've used all your free wishes. Subscribe to receive more magical picks!"
  const CloudyText := "My crystal ball is a bit cloudy at the moment. Please try again later!"
  const GatheringText := "The mystical forces are gathering strength. Please try again in a moment."

  /** Odds text when no price is known, and the result of every new pick. */
  const NoOdds := "N/A"
  const PendingResult := "Pending"

  /** Bounds of the confidence of a priced pick, the confidence of an
      unpriced one, and that of the empty-event fallback. */
  const MinConfidence := 65
  const MaxConfidence := 85
  const UnclearConfidence := 70
  const NoEventConfidence := 0

  /** One entry of a market's `outcomes`. */
  datatype Outcome = Outcome(name: string, price: int)

  /** A market; `outcomes` is `None` when the key is absent. */
  datatype Market = Market(key: string, outcomes: Option<seq<Outcome>>)

  /** A bookmaker; `markets` is `None` when the key is absent. */
  datatype Bookmaker = Bookmaker(markets: Option<seq<Market>>)

  /** An element of the feed.  `EmptyEvent` is the JSON object `{}`, which
      Python treats as false. */
  datatype Event =
    | EmptyEvent
    | Event(homeTeam: string, awayTeam: string, bookmakers: Option<seq<Bookmaker>>)

  /** What the endpoint answers: a plain message, a pick, or an uncaught
      exception (HTTP 500). */
  datatype Reply =
    | Notice(message: string)
    | Prediction(pick: string, confidence: int, odds: string)
    | ServerError

  /** A row of the pick history table. */
  datatype PickRecord = PickRecord(userId: string, date: string, pick: string, result: string,
                                   confidence: int, odds: string)

  /** The logged-in user and the stored history. */
  datatype State = State(user: Accounts.User, history: seq<PickRecord>)

  /** One call: the answer and the state after it. */
  datatype Exchange = Exchange(reply: Reply, state: State)

  /** The free plan's quota is used up; any other plan is never gated. */
  function QuotaExhausted(u: Accounts.User): (b: bool)
    ensures u.subscriptionType != Accounts.FreePlan ==> !b
    ensures u.subscriptionType == Accounts.FreePlan ==> (b <==> u.picksRemaining < 1)
  {
    u.picksRemaining <= 0 && u.subscriptionType == Accounts.FreePlan
  }

  /** `best_game.get('bookmakers', [{}])[0].get('markets', [])`; `None`
      when the list is present but empty (the index raises). */
  function FirstBookmakerMarkets(bookmakers: Option<seq<Bookmaker>>): (r: Option<seq<Market>>)
    ensures r.None? <==> bookmakers == Some([])
    ensures bookmakers.None? ==> r == Some([])
    ensures bookmakers.Some? && |bookmakers.value| > 0 ==> r == Some(bookmakers.value[0].markets.GetOr([]))
  {
    match bookmakers
    case None => Some([])
    case Some(bs) => if |bs| == 0 then None else Some(bs[0].markets.GetOr([]))
  }

  /** Index of the first market with the given key, `|ms|` when there is none. */
  function FirstWithKey(ms: seq<Market>, key: string): (k: nat)
    ensures k <= |ms|
    ensures k < |ms| ==> ms[k].key == key
    ensures forall j :: 0 <= j < k ==> ms[j].key != key
    decreases |ms|
  {
    if |ms| == 0 then 0
    else if ms[0].key == key then 0
    else 1 + FirstWithKey(ms[1..], key)
  }

  /** `next((m for m in markets if m['key'] == 'h2h'), {}).get('outcomes', [])`. */
  function HeadToHead(ms: seq<Market>): (outs: seq<Outcome>)
    ensures (forall j :: 0 <= j < |ms| ==> ms[j].key != "h2h") ==> outs == []
    ensures forall k :: 0 <= k < |ms| && ms[k].key == "h2h" && (forall j :: 0 <= j < k ==> ms[j].key != "h2h")
                        ==> outs == ms[k].outcomes.GetOr([])
  {
    var k := FirstWithKey(ms, "h2h");
    if k == |ms| then [] else ms[k].outcomes.GetOr([])
  }

  /** Python's `max(outs, key=price)` scanning from `i`, with `best` the
      position of the first largest price among `outs[..i]`. */
  function MaxFrom(outs: seq<Outcome>, i: nat, best: nat): (k: nat)
    requires best < i <= |outs|
    requires forall j :: 0 <= j < i ==> outs[j].price <= outs[best].price
    requires forall j :: 0 <= j < best ==> outs[j].price < outs[best].price
    ensures k < |outs|
    ensures forall j :: 0 <= j < |outs| ==> outs[j].price <= outs[k].price
    ensures forall j :: 0 <= j < k ==> outs[j].price < outs[k].price
    decreases |outs| - i
  {
    if i == |outs| then best
    else if outs[i].price > outs[best].price then MaxFrom(outs, i + 1, i)
    else MaxFrom(outs, i + 1, best)
  }

  /** Position of the favourite: the first outcome with the largest price. */
  function Favourite(outs: seq<Outcome>): (k: nat)
    requires |outs| > 0
    ensures k < |outs|
    ensures forall j :: 0 <= j < |outs| ==> outs[j].price <= outs[k].price
    ensures forall j :: 0 <= j < k ==> outs[j].price < outs[k].price
  {
    MaxFrom(outs, 1, 0)
  }

  /** `min(85, max(65, price))`. */
  function Clamp(price: int): (c: int)
    ensures MinConfidence <= c <= MaxConfidence
    ensures MinConfidence <= price <= MaxConfidence ==> c == price
    ensures price < MinConfidence ==> c == MinConfidence
    ensures price > MaxConfidence ==> c == MaxConfidence
  {
    Min(MaxConfidence, Max(MinConfidence, price))
  }

  function Min(a: int, b: int): int { if a <= b then a else b }

  function Max(a: int, b: int): int { if a >= b then a else b }

  /** American odds text: `+` before a positive price, `str(price)` otherwise. */
  function FormatOdds(price: int): (s: string)
    ensures |s| >= 1
    ensures s[0] == '+' <==> price > 0
    ensures s[0] == '-' <==> price < 0
    ensures s != NoOdds
    ensures price == 0 ==> s == "0"
    ensures price != 0 ==> |s| > 1 && AllDigits(s[1..]) && s[1] != '0'
  {
    if price > 0 then "+" + IntToString(price) else IntToString(price)
  }

  /** Reads American odds text back. */
  function ParseOdds(s: string): Option<int> {
    if |s| > 0 && s[0] == '+' then ParseInt(s[1..]) else ParseInt(s)
  }

  /** The odds text determines the price. */
  lemma FormatOddsRoundTrip(price: int)
    ensures ParseOdds(FormatOdds(price)) == Some(price)
  {
    IntToStringRoundTrip(price);
    if price > 0 {
      assert FormatOdds(price)[1..] == IntToString(price);
    }
  }

  /** The response built from the first event; `None` when building it
      raises. */
  function Forecast(ev: Event): (r: Option<Reply>)
    ensures r.Some? ==> r.value.Prediction?
    ensures r.None? <==> ev.Event? && ev.bookmakers == Some([])
    ensures ev.EmptyEvent? ==> r == Some(Prediction(GatheringText, NoEventConfidence, NoOdds))
    ensures ev.Event? && r.Some? ==> r.value.confidence == UnclearConfidence || MinConfidence <= r.value.confidence <= MaxConfidence
  {
    match ev
    case EmptyEvent => Some(Prediction(GatheringText, NoEventConfidence, NoOdds))
    case Event(home, away, bookmakers) =>
      match FirstBookmakerMarkets(bookmakers)
      case None => None
      case Some(ms) =>
        var outs := HeadToHead(ms);
        if |outs| > 0 then
          var fav := outs[Favourite(outs)];
          Some(Prediction(
            "I foresee " + fav.name + " triumphing over their opponent in the " + home + " vs " + away + " game!",
            Clamp(fav.price),
            FormatOdds(fav.price)))
        else
          Some(Prediction(
            "I see an exciting match between " + home + " and " + away + ", but the spirits are unclear about the winner.",
            UnclearConfidence,
            NoOdds))
  }

  /** `POST /api/chat` for the logged-in user, given the odds feed and the
      current time. */
  function ChatApi(s: State, feed: Option<seq<Event>>, now: string): (r: Exchange)
    ensures QuotaExhausted(s.user) ==> r == Exchange(Notice(QuotaText), s)
    ensures !QuotaExhausted(s.user) && (feed.None? || feed == Some([])) ==>
      r == Exchange(Notice(CloudyText), s)
    ensures !QuotaExhausted(s.user) && feed.Some? && |feed.value| > 0 && Forecast(feed.value[0]).None? ==>
      r == Exchange(ServerError, s)
    ensures !r.reply.Prediction? ==> r.state == s
    ensures r.reply.Prediction? ==> Forecast(feed.value[0]) == Some(r.reply)
    ensures r.reply.Prediction? <==>
      !QuotaExhausted(s.user) && feed.Some? && |feed.value| > 0 && Forecast(feed.value[0]).Some?
    ensures r.reply.Prediction? ==>
      && r.state.history == s.history + [PickRecord(s.user.id, now, r.reply.pick, PendingResult,
                                                    r.reply.confidence, r.reply.odds)]
      && r.state.user == s.user.(picksRemaining :=
           if s.user.subscriptionType == Accounts.FreePlan then s.user.picksRemaining - 1
           else s.user.picksRemaining)
  {
    if QuotaExhausted(s.user) then Exchange(Notice(QuotaText), s)
    else if feed.None? || |feed.value| == 0 then Exchange(Notice(CloudyText), s)
    else
      match Forecast(feed.value[0])
      case None => Exchange(ServerError, s)
      case Some(reply) =>
        var user :=
          if s.user.subscriptionType == Accounts.FreePlan
          then s.user.(picksRemaining := s.user.picksRemaining - 1)
          else s.user;
        var record := PickRecord(s.user.id, now, reply.pick, PendingResult, reply.confidence, reply.odds);
        Exchange(reply, State(user, s.history + [record]))
  }

  /** A priced pick names the first outcome with the largest price, in the
      text built from the event's teams; its confidence is that price clamped
      to [65, 85] and its odds are that price's American odds text. */
  lemma PricedPick(s: State, feed: Option<seq<Event>>, now: string)
    requires !QuotaExhausted(s.user) && feed.Some? && |feed.value| > 0
    requires feed.value[0].Event?
    requires FirstBookmakerMarkets(feed.value[0].bookmakers).Some?
    requires |HeadToHead(FirstBookmakerMarkets(feed.value[0].bookmakers).value)| > 0
    ensures var ev := feed.value[0];
            var outs := HeadToHead(FirstBookmakerMarkets(ev.bookmakers).value);
            var k := Favourite(outs);
            var r := ChatApi(s, feed, now).reply;
            && r.Prediction?
            && r.pick == "I foresee " + outs[k].name + " triumphing over their opponent in the "
                         + ev.homeTeam + " vs " + ev.awayTeam + " game!"
            && r.confidence == Clamp(outs[k].price)
            && MinConfidence <= r.confidence <= MaxConfidence
            && r.odds == FormatOdds(outs[k].price)
            && ParseOdds(r.odds) == Some(outs[k].price)
  {
    var outs := HeadToHead(FirstBookmakerMarkets(feed.value[0].bookmakers).value);
    FormatOddsRoundTrip(outs[Favourite(outs)].price);
  }

  /** An event without head-to-head prices still yields a pick, with
      confidence 70 and odds "N/A". */
  lemma UnpricedPick(s: State, feed: Option<seq<Event>>, now: string)
    requires !QuotaExhausted(s.user) && feed.Some? && |feed.value| > 0
    requires feed.value[0].Event?
    requires FirstBookmakerMarkets(feed.value[0].bookmakers).Some?
    requires HeadToHead(FirstBookmakerMarkets(feed.value[0].bookmakers).value) == []
    ensures var r := ChatApi(s, feed, now).reply;
            r.Prediction? && r.confidence == UnclearConfidence && r.odds == NoOdds
  {
  }

  /** Paid plans are never stopped by the quota. */
  lemma PaidPlansNeverGated(s: State, feed: Option<seq<Event>>, now: string)
    requires s.user.subscriptionType != Accounts.FreePlan
    ensures ChatApi(s, feed, now).reply != Notice(QuotaText)
    ensures ChatApi(s, feed, now).state.user == s.user
  {
  }

  /** On the free plan every call keeps the remaining quota plus the number
      of stored picks constant. */
  lemma FreeQuotaConserved(s: State, feed: Option<seq<Event>>, now: string)
    requires s.user.subscriptionType == Accounts.FreePlan
    ensures var t := ChatApi(s, feed, now).state;
            t.user.picksRemaining + |t.history| == s.user.picksRemaining + |s.history|
            && t.user.subscriptionType == Accounts.FreePlan
            && (s.user.picksRemaining >= 0 ==> t.user.picksRemaining >= 0)
  {
  }

  /** A sequence of calls, one feed and one timestamp per call. */
  function Run(s: State, feeds: seq<Option<seq<Event>>>, times: seq<string>): State
    requires |feeds| == |times|
    decreases |feeds|
  {
    if |feeds| == 0 then s
    else Run(ChatApi(s, feeds[0], times[0]).state, feeds[1..], times[1..])
  }

  /** However many calls a free user makes, no more picks are stored than
      the quota they started with, the history only grows, and the quota
      never goes negative. */
  lemma {:induction false} FreeQuotaBound(s: State, feeds: seq<Option<seq<Event>>>, times: seq<string>)
    requires |feeds| == |times|
    requires s.user.subscriptionType == Accounts.FreePlan && s.user.picksRemaining >= 0
    ensures var t := Run(s, feeds, times);
            && |s.history| <= |t.history| <= |s.history| + s.user.picksRemaining
            && t.history[..|s.history|] == s.history
            && t.user.picksRemaining >= 0
    decreases |feeds|
  {
    if |feeds| > 0 {
      var mid := ChatApi(s, feeds[0], times[0]).state;
      FreeQuotaConserved(s, feeds[0], times[0]);
      FreeQuotaBound(mid, feeds[1..], times[1..]);
      var t := Run(mid, feeds[1..], times[1..]);
      assert mid.history[..|s.history|] == s.history;
      assert t.history[..|s.history|] == t.history[..|mid.history|][..|s.history|];
    }
  }
}

=== FILE: roles.dfy ===
/** The two authors of a chat message, shared by both chat pages. */
module Roles {

  datatype Role = UserRole | AssistantRole
}

=== FILE: settings.dfy ===
/** The preference form of the settings page (`app/app/settings/page.tsx`):
    the default preferences, `handlePreferenceChange`, and the favourite
    sports checkboxes.  Preferences are held in local state only. */
module Settings {

  /** The six sports offered as checkboxes, in display order. */
  const Sports: seq<string> := ["NFL", "NBA", "MLB", "NHL", "Soccer", "UFC"]

  /** The values of the three `<option>`s of the risk selector. */
  const RiskLevels: seq<string> := ["low", "medium", "high"]

  datatype Prefs = Prefs(
    emailNotifications: bool,
    pushNotifications: bool,
    riskTolerance: string,
    favoriteSports: seq<string>)

  /** The initial state of the form. */
  function Default(): (p: Prefs)
    ensures p.emailNotifications && !p.pushNotifications
    ensures p.riskTolerance == "medium" && p.favoriteSports == []
  {
    Prefs(true, false, "medium", [])
  }

  /** A call `handlePreferenceChange(key, value)`, one constructor per key. */
  datatype Change =
    | SetEmailNotifications(on: bool)
    | SetPushNotifications(on: bool)
    | SetRiskTolerance(level: string)
    | SetFavoriteSports(sports: seq<string>)

  /** `{...prev, [key]: value}`: the named field takes the value and every
      other field keeps its old value. */
  function Apply(p: Prefs, c: Change): (q: Prefs)
    ensures q.emailNotifications == (if c.SetEmailNotifications? then c.on else p.emailNotifications)
    ensures q.pushNotifications == (if c.SetPushNotifications? then c.on else p.pushNotifications)
    ensures q.riskTolerance == (if c.SetRiskTolerance? then c.level else p.riskTolerance)
    ensures q.favoriteSports == (if c.SetFavoriteSports? then c.sports else p.favoriteSports)
  {
    match c
    case SetEmailNotifications(on) => p.(emailNotifications := on)
    case SetPushNotifications(on) => p.(pushNotifications := on)
    case SetRiskTolerance(level) => p.(riskTolerance := level)
    case SetFavoriteSports(sports) => p.(favoriteSports := sports)
  }

  /** Applying the same change twice is applying it once, and a later change
      to the same field overrides an earlier one. */
  lemma ApplyIdempotentLastWins(p: Prefs, c: Change, d: Change)
    ensures Apply(Apply(p, c), c) == Apply(p, c)
    ensures (c.SetEmailNotifications? && d.SetEmailNotifications?)
         || (c.SetPushNotifications? && d.SetPushNotifications?)
         || (c.SetRiskTolerance? && d.SetRiskTolerance?)
         || (c.SetFavoriteSports? && d.SetFavoriteSports?)
         ==> Apply(Apply(p, c), d) == Apply(p, d)
  {
  }

  /** `favoriteSports.filter(s => s !== sport)`. */
  function Without(xs: seq<string>, x: string): (r: seq<string>)
    ensures x !in r
    ensures |r| <= |xs|
    ensures multiset(r) == multiset(xs)[x := 0]
    decreases |xs|
  {
    if |xs| == 0 then []
    else
      assert xs == [xs[0]] + xs[1..];
      (if xs[0] == x then [] else [xs[0]]) + Without(xs[1..], x)
  }

  /** Filtering distributes over concatenation, so the survivors keep their
      relative order. */
  lemma {:induction false} WithoutAppend(a: seq<string>, b: seq<string>, x: string)
    ensures Without(a + b, x) == Without(a, x) + Without(b, x)
    decreases |a|
  {
    if |a| > 0 {
      assert (a + b)[1..] == a[1..] + b;
      WithoutAppend(a[1..], b, x);
    } else {
      assert a + b == b;
    }
  }

  /** Filtering out a value that is absent changes nothing. */
  lemma {:induction false} WithoutAbsent(xs: seq<string>, x: string)
    requires x !in xs
    ensures Without(xs, x) == xs
    decreases |xs|
  {
    if |xs| > 0 {
      WithoutAbsent(xs[1..], x);
      assert xs == [xs[0]] + xs[1..];
    }
  }

  /** The `onChange` of one sport checkbox, given its new `checked` state. */
  function ToggleSport(p: Prefs, sport: string, checked: bool): (q: Prefs)
    ensures q.emailNotifications == p.emailNotifications && q.pushNotifications == p.pushNotifications
    ensures q.riskTolerance == p.riskTolerance
    ensures checked ==> q.favoriteSports == p.favoriteSports + [sport]
    ensures !checked ==> sport !in q.favoriteSports
    ensures !checked ==> multiset(q.favoriteSports) == multiset(p.favoriteSports)[sport := 0]
  {
    var sports := if checked then p.favoriteSports + [sport] else Without(p.favoriteSports, sport);
    Apply(p, SetFavoriteSports(sports))
  }

  /** Checking a sport that is not a favourite and then unchecking it gives
      back the original preferences. */
  lemma CheckThenUncheck(p: Prefs, sport: string)
    requires sport !in p.favoriteSports
    ensures ToggleSport(ToggleSport(p, sport, true), sport, false) == p
  {
    WithoutAppend(p.favoriteSports, [sport], sport);
    WithoutAbsent(p.favoriteSports, sport);
  }

  /** Unchecking removes exactly the occurrences of that sport, keeping the
      others in order: it distributes over any split of the list. */
  lemma UncheckKeepsOrder(p: Prefs, sport: string, i: nat)
    requires i <= |p.favoriteSports|
    ensures ToggleSport(p, sport, false).favoriteSports
         == Without(p.favoriteSports[..i], sport) + Without(p.favoriteSports[i..], sport)
  {
    assert p.favoriteSports == p.favoriteSports[..i] + p.favoriteSports[i..];
    WithoutAppend(p.favoriteSports[..i], p.favoriteSports[i..], sport);
  }

  /** A user action on the form.  A sport checkbox click delivers the new
      state of the box, which is the opposite of the state it showed. */
  datatype Control =
    | EmailBox(checked: bool)
    | PushBox(checked: bool)
    | RiskSelect(value: string)
    | SportBox(sport: string)

  /** The form's handler for each control. */
  function Handle(p: Prefs, ctl: Control): (q: Prefs)
    ensures ctl.EmailBox? ==> q == p.(emailNotifications := ctl.checked)
    ensures ctl.PushBox? ==> q == p.(pushNotifications := ctl.checked)
    ensures ctl.RiskSelect? ==> q == p.(riskTolerance := ctl.value)
    ensures ctl.SportBox? ==> q.(favoriteSports := p.favoriteSports) == p
    ensures ctl.SportBox? ==> (ctl.sport in q.favoriteSports <==> ctl.sport !in p.favoriteSports)
    ensures ctl.SportBox? && ctl.sport !in p.favoriteSports ==> q.favoriteSports == p.favoriteSports + [ctl.sport]
    ensures ctl.SportBox? && ctl.sport in p.favoriteSports ==> q.favoriteSports == Without(p.favoriteSports, ctl.sport)
  {
    match ctl
    case EmailBox(checked) => Apply(p, SetEmailNotifications(checked))
    case PushBox(checked) => Apply(p, SetPushNotifications(checked))
    case RiskSelect(value) => Apply(p, SetRiskTolerance(value))
    case SportBox(sport) => ToggleSport(p, sport, sport !in p.favoriteSports)
  }

  /** The controls the page renders: the selector offers three values and
      there is one box per listed sport. */
  predicate Offered(ctl: Control) {
    match ctl
    case RiskSelect(value) => value in RiskLevels
    case SportBox(sport) => sport in Sports
    case _ => true
  }

  /** Preferences the form can reach: a known risk level, only listed
      sports, each at most once. */
  ghost predicate Valid(p: Prefs) {
    && p.riskTolerance in RiskLevels
    && (forall s :: s in p.favoriteSports ==> s in Sports)
    && Distinct(p.favoriteSports)
  }

  /** No element occurs twice. */
  ghost predicate Distinct(xs: seq<string>) {
    forall i, j :: 0 <= i < j < |xs| ==> xs[i] != xs[j]
  }

  lemma DefaultValid()
    ensures Valid(Default())
  {
  }

  /** Distinct elements survive filtering. */
  lemma {:induction false} WithoutKeepsDistinct(xs: seq<string>, x: string)
    requires Distinct(xs)
    ensures Distinct(Without(xs, x))
    decreases |xs|
  {
    if |xs| > 0 {
      WithoutKeepsDistinct(xs[1..], x);
      var rest := Without(xs[1..], x);
      assert xs[0] !in xs[1..];
      assert multiset(rest)[xs[0]] == 0;
      assert xs[0] !in rest;
      var r := Without(xs, x);
      if xs[0] == x {
        assert r == rest;
      } else {
        assert r == [xs[0]] + rest;
        forall i, j | 0 <= i < j < |r|
          ensures r[i] != r[j]
        {
          assert r[j] == rest[j - 1] && rest[j - 1] in rest;
          if i > 0 {
            assert r[i] == rest[i - 1];
          }
        }
      }
    }
  }

  /** Every control the page offers keeps the preferences valid. */
  lemma HandleKeepsValid(p: Prefs, ctl: Control)
    requires Valid(p) && Offered(ctl)
    ensures Valid(Handle(p, ctl))
  {
    if ctl.SportBox? {
      if ctl.sport in p.favoriteSports {
        WithoutKeepsDistinct(p.favoriteSports, ctl.sport);
        var r := Without(p.favoriteSports, ctl.sport);
        assert Handle(p, ctl).favoriteSports == r;
        forall s | s in r
          ensures s in Sports
        {
          assert multiset(r)[s] > 0;
        }
      } else {
        var r := p.favoriteSports + [ctl.sport];
        assert Handle(p, ctl).favoriteSports == r;
        forall i, j | 0 <= i < j < |r|
          ensures r[i] != r[j]
        {
          if j == |r| - 1 {
            assert r[i] == p.favoriteSports[i] && p.favoriteSports[i] in p.favoriteSports;
          }
        }
      }
    }
  }
}

=== FILE: text.dfy ===
/** The string operations the pages and the Flask app rely on, written out over
    `seq<char>`: JavaScript's `startsWith`, `includes`, `trim` and
    `split(c)[0]`, and Python's `str(int)` with an inverse used to state
    round trips. */
module Text {

  import opened Options

  /** `s.startsWith(p)`. */
  function StartsWith(s: string, p: string): (b: bool)
    ensures b <==> |p| <= |s| && forall i :: 0 <= i < |p| ==> s[i] == p[i]
  {
    |p| <= |s| && s[..|p|] == p
  }

  /** `sub` occurs in `s` starting at index `i`. */
  ghost predicate OccursAt(s: string, sub: string, i: int) {
    0 <= i && i + |sub| <= |s| && s[i..i + |sub|] == sub
  }

  /** `s.includes(sub)`: a left-to-right scan for an occurrence. */
  function Includes(s: string, sub: string): (r: bool)
    ensures r <==> exists i :: OccursAt(s, sub, i)
    decreases |s|
  {
    if StartsWith(s, sub) then
      assert OccursAt(s, sub, 0);
      true
    else if |s| == 0 then
      false
    else
      var rest := Includes(s[1..], sub);
      ShiftOccurrence(s, sub);
      rest
  }

  /** An occurrence past index 0 is an occurrence in the tail, and back. */
  lemma ShiftOccurrence(s: string, sub: string)
    requires |s| > 0 && !StartsWith(s, sub)
    ensures (exists i :: OccursAt(s, sub, i)) <==> (exists i :: OccursAt(s[1..], sub, i))
  {
    if exists i :: OccursAt(s, sub, i) {
      var i :| OccursAt(s, sub, i);
      assert s[..|sub|] == s[0..|sub|];
      assert s[1..][i - 1..i - 1 + |sub|] == s[i..i + |sub|];
      assert OccursAt(s[1..], sub, i - 1);
    }
    if exists i :: OccursAt(s[1..], sub, i) {
      var i :| OccursAt(s[1..], sub, i);
      assert s[i + 1..i + 1 + |sub|] == s[1..][i..i + |sub|];
      assert OccursAt(s, sub, i + 1);
    }
  }

  /** The characters `String.prototype.trim` removes: the ECMAScript
      WhiteSpace and LineTerminator code points. */
  predicate IsSpace(c: char) {
    || c == '\t' || c == '\n' || c == '\U{000B}' || c == '\U{000C}' || c == '\r'
    || c == ' ' || c == '\U{00A0}' || c == '\U{1680}'
    || ('\U{2000}' <= c <= '\U{200A}')
    || c == '\U{2028}' || c == '\U{2029}' || c == '\U{202F}' || c == '\U{205F}'
    || c == '\U{3000}' || c == '\U{FEFF}'
  }

  /** Every character of `s` is white space (the empty string included). */
  ghost predicate Blank(s: string) {
    forall i :: 0 <= i < |s| ==> IsSpace(s[i])
  }

  /** Drops leading white space. */
  function TrimStart(s: string): (r: string)
    ensures |r| <= |s| && r == s[|s| - |r|..]
    ensures Blank(s[..|s| - |r|])
    ensures |r| > 0 ==> !IsSpace(r[0])
    decreases |s|
  {
    if |s| > 0 && IsSpace(s[0]) then
      var r := TrimStart(s[1..]);
      assert s[..|s| - |r|] == [s[0]] + s[1..][..|s[1..]| - |r|];
      r
    else
      s
  }

  /** Drops trailing white space. */
  function TrimEnd(s: string): (r: string)
    ensures |r| <= |s| && r == s[..|r|]
    ensures Blank(s[|r|..])
    ensures |r| > 0 ==> !IsSpace(r[|r| - 1])
    decreases |s|
  {
    if |s| > 0 && IsSpace(s[|s| - 1]) then
      var r := TrimEnd(s[..|s| - 1]);
      assert s[|r|..] == s[..|s| - 1][|r|..] + [s[|s| - 1]];
      r
    else
      s
  }

  /** `s.trim()`: the piece of `s` left once the white space at both ends
      is cut off. */
  function Trim(s: string): (r: string)
    ensures exists i :: && OccursAt(s, r, i)
                        && (forall k :: 0 <= k < i ==> IsSpace(s[k]))
                        && (forall k :: i + |r| <= k < |s| ==> IsSpace(s[k]))
    ensures |r| > 0 ==> !IsSpace(r[0]) && !IsSpace(r[|r| - 1])
  {
    var t := TrimStart(s);
    var r := TrimEnd(t);
    PrefixOfSuffix(s, t, r);
    BlankTail(s, t, r);
    BlankEnds(s, |s| - |t|, |s| - |t| + |r|);
    r
  }

  /** A prefix of a suffix of `s` occurs in `s` where the suffix starts. */
  lemma PrefixOfSuffix(s: string, t: string, r: string)
    requires |t| <= |s| && t == s[|s| - |t|..]
    requires |r| <= |t| && r == t[..|r|]
    ensures OccursAt(s, r, |s| - |t|)
  {
    assert s[|s| - |t|..|s| - |t| + |r|] == t[..|r|];
  }

  /** Blank slices at both ends, read character by character. */
  lemma BlankEnds(s: string, i: nat, j: nat)
    requires i <= j <= |s| && Blank(s[..i]) && Blank(s[j..])
    ensures forall k :: 0 <= k < i ==> IsSpace(s[k])
    ensures forall k :: j <= k < |s| ==> IsSpace(s[k])
  {
    forall k | 0 <= k < i
      ensures IsSpace(s[k])
    {
      assert s[..i][k] == s[k];
    }
    forall k | j <= k < |s|
      ensures IsSpace(s[k])
    {
      assert s[j..][k - j] == s[k];
    }
  }

  /** White space after that prefix in the suffix is white space in `s`. */
  lemma BlankTail(s: string, t: string, r: string)
    requires |t| <= |s| && t == s[|s| - |t|..]
    requires |r| <= |t| && Blank(t[|r|..])
    ensures Blank(s[|s| - |t| + |r|..])
  {
    assert s[|s| - |t| + |r|..] == t[|r|..];
  }

  /** `!s.trim()` holds exactly for the strings made only of white space. */
  lemma TrimEmptyIffBlank(s: string)
    ensures Trim(s) == [] <==> Blank(s)
  {
    var t := TrimStart(s);
    if Trim(s) == [] {
      assert t[0..] == t;
      assert |t| == 0;
      assert s[..|s| - |t|] == s;
    } else {
      var r := Trim(s);
      assert !IsSpace(r[0]);
      assert r[0] == t[0] == s[|s| - |t|];
    }
  }

  /** `s.split(c)[0]`: everything before the first `c`, or all of `s`. */
  function BeforeFirst(s: string, c: char): (r: string)
    ensures StartsWith(s, r)
    ensures c !in r
    ensures |r| < |s| ==> s[|r|] == c
    decreases |s|
  {
    if |s| == 0 || s[0] == c then [] else [s[0]] + BeforeFirst(s[1..], c)
  }

  /** The prefix before the first `c` is the whole string exactly when `c`
      does not occur, and otherwise stops at the first occurrence. */
  lemma BeforeFirstIsFirstSplit(s: string, c: char)
    ensures c !in s ==> BeforeFirst(s, c) == s
    ensures c in s ==> |BeforeFirst(s, c)| < |s| && s[|BeforeFirst(s, c)|] == c
  {
    var r := BeforeFirst(s, c);
    assert |r| < |s| ==> s[|r|] in s;
    assert s[..|s|] == s;
  }

  /** The decimal digit character for `d`. */
  function DigitChar(d: nat): (c: char)
    requires d < 10
    ensures '0' <= c <= '9'
  {
    (48 + d) as char
  }

  /** The value of a decimal digit character. */
  function DigitValue(c: char): (d: nat)
    requires '0' <= c <= '9'
    ensures d < 10 && DigitChar(d) == c
  {
    (c as int) - 48
  }

  predicate AllDigits(s: string) {
    forall i :: 0 <= i < |s| ==> '0' <= s[i] <= '9'
  }

  /** Python's `str(n)` for a non-negative integer: no sign, no leading zeros. */
  function NatToString(n: nat): (r: string)
    ensures |r| >= 1 && AllDigits(r)
    ensures |r| > 1 ==> r[0] != '0'
    ensures n > 0 ==> r[0] != '0'
    ensures n == 0 ==> r == "0"
    decreases n
  {
    if n < 10 then [DigitChar(n)] else NatToString(n / 10) + [DigitChar(n % 10)]
  }

  /** Python's `str(n)` for any integer. */
  function IntToString(n: int): (r: string)
    ensures |r| >= 1
    ensures r[0] == '-' <==> n < 0
    ensures n >= 0 ==> AllDigits(r)
    ensures n >= 0 && |r| > 1 ==> r[0] != '0'
    ensures n > 0 ==> r[0] != '0'
    ensures n == 0 ==> r == "0"
    ensures n < 0 ==> |r| > 1 && AllDigits(r[1..]) && r[1] != '0'
  {
    if n < 0 then "-" + NatToString(-n) else NatToString(n)
  }

  /** Reads a string of decimal digits back as a number. */
  function ParseNat(s: string): nat
    requires AllDigits(s)
    decreases |s|
  {
    if |s| == 0 then 0 else 10 * ParseNat(s[..|s| - 1]) + DigitValue(s[|s| - 1])
  }

  /** Reading back a printed number gives the number. */
  lemma {:induction false} ParseNatToString(n: nat)
    ensures ParseNat(NatToString(n)) == n
    decreases n
  {
    if n >= 10 {
      var s := NatToString(n);
      assert s[..|s| - 1] == NatToString(n / 10);
      ParseNatToString(n / 10);
    }
  }

  /** Reads an optionally signed decimal integer (`int(s)` on what `str` printed). */
  function ParseInt(s: string): Option<int> {
    if |s| > 0 && s[0] == '-' && |s| > 1 && AllDigits(s[1..]) then Some(0 - ParseNat(s[1..]))
    else if |s| > 0 && AllDigits(s) then Some(ParseNat(s))
    else None
  }

  /** `str` and `ParseInt` are inverse on every integer. */
  lemma IntToStringRoundTrip(n: int)
    ensures ParseInt(IntToString(n)) == Some(n)
  {
    var s := IntToString(n);
    if n < 0 {
      var digits := NatToString(-n);
      ParseNatToString(-n);
      assert s == "-" + digits;
      assert s[1..] == digits;
      assert ParseInt(s) == Some(0 - ParseNat(digits));
    } else {
      ParseNatToString(n);
      assert s == NatToString(n) && s[0] != '-';
      assert ParseInt(s) == Some(ParseNat(s));
    }
  }
}
